=== FILE: README.md ===
# ShopLocal core in Dafny

This project models the business core of the ShopLocal web shop (`app.py`).
MySQL is replaced by one immutable value: a `Store` holding the products keyed by id, the append-only inventory log, and the order and order-item rows.
The model has five parts:

- **The stock mutator** (`update_inventory`, module `Inventory`). It is the single read-check-write step on a product's stock. On success it appends one ledger entry and applies the status rule: `out_of_stock` at zero, `active` when the stock leaves zero.
- **The visitor's cart** (module `Carts`). This covers add, update and remove, plus the two page totals: the cart page counts only active products, while the checkout page counts every product that exists.
- **The form order path** (`place_order`, module `Orders`). It drops the cart lines whose stock cannot cover them and fails only when none is left. It writes a confirmed, paid order with one item per kept line, sells every kept line through the mutator, and raises the purchase counters.
- **The JSON order path** (`api_create_order`, module `Orders`). It rejects the whole request at its first bad line before anything is written. Otherwise it writes the order, its items and the sales, and leaves the purchase counters alone.
- **The image file-name check** (`allowed_file`, module `Uploads`).

Prices are integer minor units (paise), so every total is exact.
The cart is a Python dictionary kept in the session. It is modelled as an insertion-ordered sequence of lines with distinct keys (`Carts.WellFormed`), and `Carts.Get` gives the dictionary view.
Wherever the source would throw away the mutator's boolean answer, the model does the same: the order flows ignore a failed decrement, and nothing is rolled back.

An add-to-cart request above the stock is refused, not clamped (app.py:276-287).

Module layout:

| file | module | contents |
|---|---|---|
| `wrappers.dfy` | `Wrappers` | `Option`, `Result` |
| `shop.dfy` | `Shop` | products, ledger entries, orders, order items, the store, the stock/status invariants |
| `inventory.dfy` | `Inventory` | `UpdateInventory`, runs of mutator calls, ledger accounting |
| `carts.dfy` | `Carts` | cart operations and totals |
| `orders.dfy` | `Orders` | form and API order assembly, persistence, sale accounting |
| `uploads.dfy` | `Uploads` | `AllowedFile` |

## Model

| member | source | states |
|---|---|---|
| Inventory.UpdateInventory | app.py:127-167 | Succeeds exactly when the product exists and stock plus change is not negative. On failure the store is unchanged. On success the stock becomes previous plus change, nothing else about any product changes, and the log gains exactly one entry carrying the previous and new stock, the change type, the reference, the notes and the acting admin. At zero the status becomes out of stock; leaving zero it becomes active; otherwise it is kept. |
| Inventory.UpdateInventoryKeepsInvariants | app.py:133-163 | One mutator call preserves three invariants: no stock is negative, a product is out of stock exactly when its stock is zero, and every ledger entry's new stock is its previous stock plus its change and is not negative. |
| Inventory.LedgerAccountsForStock | app.py:139-157 | Over any sequence of mutator calls the ledger is only appended to and no product appears or disappears. Each product's stock has moved by exactly the sum of the changes the new entries record for it. |
| Inventory.ApplyAllKeepsInvariants | app.py:133-163 | Over any sequence of mutator calls, stocks stay non-negative, the status tracks zero stock, and the ledger stays consistent. |
| Carts.Put | app.py:288-290 | Dictionary assignment: the key maps to the new quantity and every other key keeps its value. An existing key keeps its position; a new key is appended. Storing the quantity a key already holds leaves the cart exactly as it was. Distinct keys are preserved. |
| Carts.AddToCart | app.py:261-295 | Refused with "not found" exactly when the product is missing or not active, refused with "only N available" when the stock is below the requested quantity, and refused with "cannot add more" when the stock is below the merged quantity. Succeeds exactly when the stock covers both the request and the request merged with the quantity already in the cart. On success the stored quantity is the existing one plus the request and never exceeds the stock, and other lines are untouched. A merged line keeps its position in the cart. A product not yet in the cart is appended as a new last line. |
| Carts.RemoveUndoesNewLine | app.py:288-320 | Removing the line that adding a new product appended gives back the cart it was appended to, so a first add-to-cart is undone by remove-from-cart. |
| Carts.UpdateCart | app.py:297-311 | A positive quantity is stored under the key; a non-positive one removes the key exactly as the remove handler does, so the other lines keep their order. Other keys are unchanged and distinct keys are preserved. An updated line keeps its position and a new key is appended. Updating a line to the quantity it already holds changes nothing. |
| Carts.RemoveFromCart | app.py:313-320 | After removal the key is absent, every other key keeps its value, and a cart without the key is returned unchanged. |
| Carts.RemoveKeepsOrder | app.py:313-320 | Removing a key held by one line drops exactly that line and keeps the lines before and after it in their order, as `pop` does. |
| Carts.RemoveFromCartIdempotent | app.py:313-320 | Removing twice equals removing once. |
| Carts.CartTotal | app.py:245-255 | A cart in which no line counts totals zero. With non-negative quantities and prices the total is not negative. |
| Carts.CartTotalAppend | app.py:245-255 | A cart total is additive: the total of two carts laid end to end is the sum of their totals. |
| Carts.ViewCartTotal | app.py:245-255 | The cart page's total is zero when no line names an existing, active product. With non-negative quantities and prices it is not negative. |
| Carts.ViewCartTotalAddsLine | app.py:245-255 | Each further cart line adds price times quantity to the cart page's total when its product exists and is active, and nothing otherwise. |
| Carts.CheckoutTotal | app.py:322-351 | The checkout page gives no total exactly for the empty cart, which it refuses. |
| Carts.CheckoutTotalAddsLine | app.py:337-347 | Each further cart line adds price times quantity to the checkout total whenever its product exists, whatever its status. |
| Carts.InactiveLineCountsOnlyAtCheckout | app.py:234-351 | A line whose product exists but is not active adds its price times quantity to the checkout total and nothing to the cart page's total. The cart page filters on status (app.py:248) and the checkout page does not (app.py:340). |
| Carts.ViewAndCheckoutAgree | app.py:234-351 | When every product the cart names is active, the cart page's total (app.py:245-255, active products only) equals the checkout page's total (app.py:337-347, every existing product). |
| Carts.RemoveLowersTotal | app.py:245-255 | Removing a line from a cart with distinct keys lowers either page's total by exactly that line's counted value. |
| Orders.KeptLines | app.py:378-390 | The form path keeps a line exactly when its product exists and its stock covers the quantity; each kept line snapshots the name, price and subtotal. Nothing is kept exactly when no line is available. |
| Orders.KeptLinesOfOneLine | app.py:378-390 | A one-line cart keeps exactly that line's snapshot when the line is available, and nothing otherwise. |
| Orders.KeptLinesInCartOrder | app.py:378-390 | The kept lines follow the cart's order: for a cart split in two, the kept lines are those of the first part followed by those of the second. Together with the one-line case, this fixes both the order and the count of the order items and sales (app.py:410-419). |
| Orders.PersistLine | app.py:410-424 | One accepted line appends its order item and calls the mutator with minus its quantity, as a sale referencing the order. When the stock covers the line, the stock falls by the quantity, the status rule applies and one sale entry is logged. When it does not, the item is still written, the log is untouched and the product row changes only in its purchase counter. Purchases rise only on the form path. No other product changes, and the line's product keeps its name and price. |
| Orders.Persist | app.py:410-424 | Persisting the accepted lines appends one item per line in order and only extends the log, by at most one entry per line. For every input, each product's purchase counter rises by the quantity the lines ask of it on the form path, and stays unchanged on the API path. Every product keeps its name and price. |
| Orders.PersistLeavesOthers | app.py:410-424 | A product that no accepted line names comes out of the persistence step exactly as it was. |
| Orders.PersistKeepsInvariants | app.py:410-424 | Persisting an order's lines keeps every stock non-negative and a product out of stock exactly when its stock is zero. |
| Orders.PlaceOrder | app.py:353-433 | An empty cart is refused first, then missing name, email or phone. The order succeeds exactly when some cart line is available; otherwise it fails with "nothing available", and any failure leaves the store unchanged. On success it writes one confirmed, paid order whose total is the exact sum of the kept lines' subtotals, plus one item per kept line. The visitor's cart is emptied on success and kept on every refusal. No product appears or disappears, every product keeps its name and price, and a product the cart does not hold is left exactly as it was. |
| Orders.FormOrderSellsEveryKeptLine | app.py:378-424 | For a placed form order, the ledger gains exactly one sale entry per kept line, in order. Each product's stock falls by, and its purchase counter rises by, the quantity its kept line asks. |
| Orders.PlacedTotalMatchesCheckout | app.py:337-347 | When every cart line is available, the order is placed for the same total the checkout page showed. |
| Orders.ValidateApi | app.py:549-568 | Validation succeeds exactly when every line names an existing product whose stock covers the line's quantity, which defaults to one. On success there is one draft per line, in order. On failure the error names the first line that fails. |
| Orders.CreateOrderApi | app.py:525-601 | A request without items is refused, then one missing name, email or phone, then one with any unavailable line, reporting the first such line's product; each refusal leaves the store unchanged. Success happens exactly when all lines validate. On success it writes one confirmed, paid order for the exact total and one item per line. For every request, including one that repeats a product id, no product appears or disappears, no purchase counter changes and every product keeps its name and price. A product that no request line names is left exactly as it was. |
| Orders.ApiOrderSellsEveryLine | app.py:549-591 | When a placed API request names each product at most once, the ledger gains one sale per line and each stock falls by what the request asks of it. The same holds for every request under the cumulative stock check. Purchase counters do not change. |
| Orders.ApiOversells | app.py:549-591 | With one unit in stock, a request naming that product twice is placed for two units. Two items and the full total are written, but only one sale is logged and the stock stops at zero. |
| Orders.CheckedApiRefusesOversell | app.py:549-558 | Under the cumulative stock check, the same request is refused and the store is unchanged. |
| Orders.FormSellsLastUnits | app.py:378-424 | Ordering all five units of a product through the form sets its stock to zero and marks it out of stock. It adds five purchases and logs one sale entry from 5 to 0. |
| Uploads.LastDot | app.py:70 | Finds the last '.' of a name, and reports none exactly when the name has no '.'. |
| Uploads.AllowedFile | app.py:45-70 | A name is accepted exactly when it has a last '.' and the lower-cased text after it is one of png, jpg, jpeg, gif, webp. |
| Uploads.AllowedFileByExtension | app.py:68-70 | For a stem, a '.' and a dot-free extension, acceptance depends on the extension alone, whatever the stem holds. |
| Uploads.AllowedFileIgnoresCase | app.py:68-70 | Lower-casing the whole name never changes the verdict. |
| Uploads.UpperCaseExtensionAllowed | app.py:70 | `photo.PNG` is accepted. |
| Uploads.OnlyLastExtensionCounts | app.py:70 | `archive.png.zip` is refused, because only the text after the last '.' counts. |
| Uploads.NoDotRefused | app.py:70 | A name without a '.' is refused. |

## Left out

- Flask routing, templates, flash messages, redirects, CORS and the JSON envelopes are presentation only. Each refusal is an error value instead.
- Database connections, SQL text, commits and row locking are not modelled.
  - Each storage call takes effect immediately, in program order.
  - `update_inventory` opens its own connection while the caller's order rows are still uncommitted. The model ignores this isolation, and also ignores concurrent requests.
- The admin add-product and edit-product flows (app.py:724-734, app.py:778-791) call the mutator on a second connection while their own write is uncommitted. Their outcome depends on MySQL isolation, so only the mutator itself is modelled. `Inventory.ApplyAll` covers any sequence of its calls.
- `generate_order_number` (app.py:121-125) uses the clock and a random UUID. The order number, and the order id the database assigns, are parameters.
- The acting admin read from the session (app.py:150) is the `actor` parameter.
- S3 upload, local file saving, `secure_filename`, password hashing and admin login are foreign calls and I/O.
- Catalog, search, recommendations, view counters and dashboard statistics are reads with unspecified ordering and fire-and-forget counters.
- The float conversions at the API boundary and the currency filter are floating-point formatting. Totals are exact integers here.
- Python's run-time type errors are not modelled. The source would crash on a non-integer or null quantity in an API request, or on a non-numeric form field.
- The session serializer's key ordering is not modelled. The cart keeps Python's insertion order.
- Orders.FormOrderSellsEveryKeptLine: states the ledger, stock and purchase movement of a placed form order, but not the status each sold product ends in. `Orders.PersistLine` states the status rule for each line, and `Orders.PlaceOrder` keeps "out of stock exactly at zero stock" for the whole store.
- Uploads.AllowedFile: lower-casing is ASCII only. For this extension set the result is still exact: no other character lower-cases to a lone ASCII letter of `png`, `jpg`, `jpeg`, `gif` or `webp`. The Kelvin sign becomes `k`, and dotted capital I becomes two characters.

## Findings

| source | as written | input that shows it | evidently intended | confidence | as-written member | corrected member |
|---|---|---|---|---|---|---|
| app.py:549-591 | Each API line is checked against the product's stock alone, before any decrement. The decrements then ignore the mutator's answer, so a request repeating a product id can pass validation for more units than exist. | Product 1 has stock 1, and the request lists `{"product_id": 1}` twice. The order is placed for two units with total 50000 and two items. Only one sale is logged, and the second decrement fails silently. | A line should be checked against the stock left after the earlier lines of the same request, so every placed line is actually sold. | not executed | Orders.ApiOversells | Orders.ApiOrderSellsEveryLine |

The corrected check is `CreateOrderApi` with `checked` set. `Orders.CheckedApiRefusesOversell` shows it refusing the request above. `Orders.ApiOrderSellsEveryLine` proves that under it every line of a placed order is logged as a sale and moves the stock.

=== FILE: carts.dfy ===
/**
 The visitor's cart: product id to requested quantity, kept in the session.
 The session holds an insertion-ordered dictionary, modelled as a sequence of
 lines: assigning to a key already present keeps its position, a new key is
 appended, and `Get` gives the dictionary view.
 */
module Carts {
  import opened Wrappers
  import opened Shop

  datatype CartLine = CartLine(productId: int, quantity: int)

  type Cart = seq<CartLine>

  datatype CartError = ProductNotFound | OnlyAvailable(stock: int) | CannotAddMore(stock: int)

  /** Each product id appears on at most one line, as in a dictionary. */
  predicate WellFormed(c: Cart) {
    forall i, j :: 0 <= i < j < |c| ==> c[i].productId != c[j].productId
  }

  /** The quantity stored under `id`, if any. */
  function Get(c: Cart, id: int): (q: Option<int>)
    ensures q.None? <==> forall i :: 0 <= i < |c| ==> c[i].productId != id
    decreases |c|
  {
    if |c| == 0 then None
    else if c[0].productId == id then Some(c[0].quantity)
    else Get(c[1..], id)
  }

  /** The product ids of the lines, in cart order. */
  function Ids(c: Cart): seq<int>
    decreases |c|
  {
    if |c| == 0 then [] else [c[0].productId] + Ids(c[1..])
  }

  /** How lookup and well-formedness see a line placed in front of a cart. */
  lemma ConsFacts(l: CartLine, c: Cart)
    ensures ([l] + c)[0] == l && ([l] + c)[1..] == c
    ensures forall k :: Get([l] + c, k) == if l.productId == k then Some(l.quantity) else Get(c, k)
    ensures WellFormed([l] + c) <==> WellFormed(c) && Get(c, l.productId).None?
  {
    var c' := [l] + c;
    assert c'[1..] == c;
    assert forall i :: 0 <= i < |c| ==> c'[i + 1] == c[i];
    if WellFormed(c) && Get(c, l.productId).None? {
      forall i, j | 0 <= i < j < |c'|
        ensures c'[i].productId != c'[j].productId
      {
        if i > 0 {
          assert c'[i] == c[i - 1] && c'[j] == c[j - 1];
        } else {
          assert c'[j] == c[j - 1];
        }
      }
    }
    if WellFormed(c') {
      forall i, j | 0 <= i < j < |c|
        ensures c[i].productId != c[j].productId
      {
        assert c'[i + 1] == c[i] && c'[j + 1] == c[j];
      }
    }
  }

  /** Dictionary assignment `cart[id] = q`. */
  function Put(c: Cart, id: int, q: int): (c': Cart)
    ensures Get(c', id) == Some(q)
    ensures forall k :: k != id ==> Get(c', k) == Get(c, k)
    ensures Get(c, id).Some? ==> Ids(c') == Ids(c)
    ensures Get(c, id).None? ==> c' == c + [CartLine(id, q)]
    ensures Get(c, id) == Some(q) ==> c' == c
    ensures WellFormed(c) ==> WellFormed(c')
    decreases |c|
  {
    if |c| == 0 then
      ConsFacts(CartLine(id, q), c);
      assert [CartLine(id, q)] + c == [CartLine(id, q)];
      [CartLine(id, q)]
    else if c[0].productId == id then
      PutHead(c, id, q);
      [CartLine(id, q)] + c[1..]
    else
      var rest := Put(c[1..], id, q);
      PutBehind(c, id, q, rest);
      [c[0]] + rest
  }

  /** `Put` on a cart whose first line holds the key: that line is replaced in place. */
  lemma PutHead(c: Cart, id: int, q: int)
    requires |c| > 0 && c[0].productId == id
    ensures var c' := [CartLine(id, q)] + c[1..];
      && Get(c', id) == Some(q)
      && (forall k :: k != id ==> Get(c', k) == Get(c, k))
      && Ids(c') == Ids(c)
      && (c[0].quantity == q ==> c' == c)
      && (WellFormed(c) ==> WellFormed(c'))
  {
  }

  /** `Put` behind a first line with another key: the line is kept in front of the updated rest. */
  lemma PutBehind(c: Cart, id: int, q: int, rest: Cart)
    requires |c| > 0 && c[0].productId != id
    requires Get(rest, id) == Some(q)
    requires forall k :: k != id ==> Get(rest, k) == Get(c[1..], k)
    requires Get(c[1..], id).Some? ==> Ids(rest) == Ids(c[1..])
    requires Get(c[1..], id).None? ==> rest == c[1..] + [CartLine(id, q)]
    requires Get(c[1..], id) == Some(q) ==> rest == c[1..]
    requires WellFormed(c[1..]) ==> WellFormed(rest)
    ensures var c' := [c[0]] + rest;
      && Get(c', id) == Some(q)
      && (forall k :: k != id ==> Get(c', k) == Get(c, k))
      && (Get(c, id).Some? ==> Ids(c') == Ids(c))
      && (Get(c, id).None? ==> c' == c + [CartLine(id, q)])
      && (Get(c, id) == Some(q) ==> c' == c)
      && (WellFormed(c) ==> WellFormed(c'))
  {
    assert c == [c[0]] + c[1..];
    ConsFacts(c[0], c[1..]);
    ConsFacts(c[0], rest);
    assert ([c[0]] + rest)[1..] == rest;
  }

  /** `cart.pop(id, None)`: drops the line for `id`, if there is one. */
  function RemoveFromCart(c: Cart, id: int): (c': Cart)
    ensures Get(c', id) == None
    ensures forall k :: k != id ==> Get(c', k) == Get(c, k)
    ensures Get(c, id).None? ==> c' == c
    ensures forall l :: l in c' ==> l in c
    ensures WellFormed(c) ==> WellFormed(c')
    decreases |c|
  {
    if |c| == 0 then c
    else
      ConsFacts(c[0], c[1..]);
      if c[0].productId == id then RemoveFromCart(c[1..], id)
      else
        var rest := RemoveFromCart(c[1..], id);
        ConsFacts(c[0], rest);
        [c[0]] + rest
  }

  /** Removing twice is the same as removing once. */
  lemma RemoveFromCartIdempotent(c: Cart, id: int)
    ensures RemoveFromCart(RemoveFromCart(c, id), id) == RemoveFromCart(c, id)
  {
  }

  /** Removing a line that was just added as new gives back the cart it was added to. */
  lemma {:induction false} RemoveUndoesNewLine(c: Cart, id: int, q: int)
    requires Get(c, id).None?
    ensures RemoveFromCart(c + [CartLine(id, q)], id) == c
    decreases |c|
  {
    if |c| == 0 {
      assert [] + [CartLine(id, q)] == [CartLine(id, q)];
      assert [CartLine(id, q)][1..] == [];
    } else {
      var c' := c + [CartLine(id, q)];
      assert c'[0] == c[0] && c'[1..] == c[1..] + [CartLine(id, q)];
      RemoveUndoesNewLine(c[1..], id, q);
      assert c == [c[0]] + c[1..];
    }
  }

  /**
   Removing a key held by exactly one line drops that line and keeps the
   lines before and after it in their order, as a dictionary's `pop` does.
   */
  lemma {:induction false} RemoveKeepsOrder(c1: Cart, l: CartLine, c2: Cart)
    requires Get(c1, l.productId).None? && Get(c2, l.productId).None?
    ensures RemoveFromCart(c1 + [l] + c2, l.productId) == c1 + c2
    decreases |c1|
  {
    if |c1| == 0 {
      RemoveFront(l, c2);
      assert c1 + [l] + c2 == [l] + c2;
    } else {
      GetOfTail(c1, l.productId);
      RemoveKeepsOrder(c1[1..], l, c2);
      RemoveKeepsOrderStep(c1, l, c2);
    }
  }

  lemma RemoveKeepsOrderStep(c1: Cart, l: CartLine, c2: Cart)
    requires |c1| > 0 && c1[0].productId != l.productId
    requires RemoveFromCart(c1[1..] + [l] + c2, l.productId) == c1[1..] + c2
    ensures RemoveFromCart(c1 + [l] + c2, l.productId) == c1 + c2
  {
    FrontOfConcat(c1, [l], c2);
    RemoveBehind(c1[0], c1[1..] + [l] + c2, l.productId);
  }

  /** How a non-empty first operand splits off its front element in a concatenation. */
  lemma FrontOfConcat<T>(a: seq<T>, b: seq<T>, c: seq<T>)
    requires |a| > 0
    ensures a + b + c == [a[0]] + (a[1..] + b + c)
    ensures a + c == [a[0]] + (a[1..] + c)
  {
    assert a == [a[0]] + a[1..];
  }

  /** Removing the key of the front line of a cart without other lines for it leaves the rest. */
  lemma RemoveFront(l: CartLine, c: Cart)
    requires Get(c, l.productId).None?
    ensures RemoveFromCart([l] + c, l.productId) == c
  {
    assert ([l] + c)[0] == l && ([l] + c)[1..] == c;
  }

  lemma GetOfTail(c: Cart, id: int)
    requires |c| > 0 && Get(c, id).None?
    ensures c[0].productId != id && Get(c[1..], id).None?
  {
  }

  /** A line with another key stays in front when a key is removed. */
  lemma RemoveBehind(x: CartLine, rest: Cart, id: int)
    requires x.productId != id
    ensures RemoveFromCart([x] + rest, id) == [x] + RemoveFromCart(rest, id)
  {
    assert ([x] + rest)[0] == x && ([x] + rest)[1..] == rest;
  }

  /**
   Adds `q` of an active product, merging with a quantity already in the cart.
   The request is refused, never clamped, when the stock cannot cover it.
   */
  function AddToCart(products: map<int, Product>, c: Cart, id: int, q: int): (r: Result<Cart, CartError>)
    ensures r == Failure(ProductNotFound) <==>
      !(id in products && products[id].status == Active)
    ensures id in products && products[id].status == Active && products[id].stock < q ==>
      r == Failure(OnlyAvailable(products[id].stock))
    ensures id in products && products[id].status == Active && products[id].stock >= q
            && Get(c, id).Some? && products[id].stock < Get(c, id).value + q ==>
      r == Failure(CannotAddMore(products[id].stock))
    ensures r.Success? <==>
      && id in products && products[id].status == Active
      && products[id].stock >= q
      && products[id].stock >= Get(c, id).GetOr(0) + q
    ensures r.Success? ==>
      && Get(r.value, id) == Some(Get(c, id).GetOr(0) + q)
      && Get(r.value, id).value <= products[id].stock
      && (forall k :: k != id ==> Get(r.value, k) == Get(c, k))
      && (Get(c, id).Some? ==> Ids(r.value) == Ids(c))
      && (Get(c, id).None? ==> r.value == c + [CartLine(id, q)])
      && (WellFormed(c) ==> WellFormed(r.value))
  {
    if !(id in products && products[id].status == Active) then Failure(ProductNotFound)
    else
      var stock := products[id].stock;
      if stock < q then Failure(OnlyAvailable(stock))
      else
        match Get(c, id)
        case Some(existing) =>
          if stock < existing + q then Failure(CannotAddMore(stock))
          else Success(Put(c, id, existing + q))
        case None => Success(Put(c, id, q))
  }

  /** Sets the quantity for `id`, or drops the line when the new quantity is not positive. */
  function UpdateCart(c: Cart, id: int, q: int): (c': Cart)
    ensures q > 0 ==> Get(c', id) == Some(q)
    ensures q <= 0 ==> Get(c', id) == None
    ensures q <= 0 ==> c' == RemoveFromCart(c, id)
    ensures q > 0 && Get(c, id) == Some(q) ==> c' == c
    ensures q > 0 && Get(c, id).Some? ==> Ids(c') == Ids(c)
    ensures q > 0 && Get(c, id).None? ==> c' == c + [CartLine(id, q)]
    ensures forall k :: k != id ==> Get(c', k) == Get(c, k)
    ensures WellFormed(c) ==> WellFormed(c')
  {
    if q > 0 then Put(c, id, q) else RemoveFromCart(c, id)
  }

  /** Whether a line counts toward a cart total: its product exists and, when `activeOnly`, is active. */
  predicate Counted(products: map<int, Product>, id: int, activeOnly: bool) {
    id in products && (!activeOnly || products[id].status == Active)
  }

  function LineValue(products: map<int, Product>, l: CartLine, activeOnly: bool): int {
    if Counted(products, l.productId, activeOnly) then products[l.productId].price * l.quantity else 0
  }

  /** Exact sum of price times quantity over the counted lines. */
  function CartTotal(products: map<int, Product>, c: Cart, activeOnly: bool): (total: int)
    ensures (forall i :: 0 <= i < |c| ==> !Counted(products, c[i].productId, activeOnly)) ==> total == 0
    ensures (forall i :: 0 <= i < |c| ==> c[i].quantity >= 0 && (c[i].productId in products ==> products[c[i].productId].price >= 0))
            ==> total >= 0
    decreases |c|
  {
    if |c| == 0 then 0
    else LineValue(products, c[0], activeOnly) + CartTotal(products, c[1..], activeOnly)
  }

  /** A cart total is additive: the total of two carts laid end to end is the sum of their totals. */
  lemma {:induction false} CartTotalAppend(products: map<int, Product>, c1: Cart, c2: Cart, activeOnly: bool)
    ensures CartTotal(products, c1 + c2, activeOnly)
         == CartTotal(products, c1, activeOnly) + CartTotal(products, c2, activeOnly)
    decreases |c1|
  {
    if |c1| == 0 {
      assert c1 + c2 == c2;
    } else {
      assert (c1 + c2)[0] == c1[0] && (c1 + c2)[1..] == c1[1..] + c2;
      CartTotalAppend(products, c1[1..], c2, activeOnly);
    }
  }

  /** The cart page's total: only lines whose product exists and is active. */
  function ViewCartTotal(products: map<int, Product>, c: Cart): (total: int)
    ensures (forall i :: 0 <= i < |c| ==>
               c[i].productId !in products || products[c[i].productId].status != Active) ==> total == 0
    ensures (forall i :: 0 <= i < |c| ==> c[i].quantity >= 0 && (c[i].productId in products ==> products[c[i].productId].price >= 0))
            ==> total >= 0
  {
    CartTotal(products, c, true)
  }

  /**
   The cart page's running total: a further line adds its price times its
   quantity when its product exists and is active, and nothing otherwise.
   */
  lemma ViewCartTotalAddsLine(products: map<int, Product>, c: Cart, l: CartLine)
    ensures ViewCartTotal(products, c + [l])
         == ViewCartTotal(products, c)
            + (if l.productId in products && products[l.productId].status == Active
               then products[l.productId].price * l.quantity else 0)
  {
    CartTotalAppend(products, c, [l], true);
    assert [l][1..] == [];
  }

  /** The checkout page's total: every line whose product exists; there is none for an empty cart, which the page refuses. */
  function CheckoutTotal(products: map<int, Product>, c: Cart): (r: Option<int>)
    ensures r.None? <==> c == []
  {
    if c == [] then None else Some(CartTotal(products, c, false))
  }

  /**
   The checkout page's running total: a further line adds its price times its
   quantity whenever its product exists, whatever its status.
   */
  lemma CheckoutTotalAddsLine(products: map<int, Product>, c: Cart, l: CartLine)
    ensures CheckoutTotal(products, c + [l])
         == Some(CheckoutTotal(products, c).GetOr(0)
                 + (if l.productId in products then products[l.productId].price * l.quantity else 0))
  {
    CartTotalAppend(products, c, [l], false);
    assert [l][1..] == [];
  }

  /** A line whose product exists but is not active adds to the checkout total and nothing to the cart page's total. */
  lemma InactiveLineCountsOnlyAtCheckout(products: map<int, Product>, c: Cart, l: CartLine)
    requires l.productId in products && products[l.productId].status != Active
    ensures ViewCartTotal(products, c + [l]) == ViewCartTotal(products, c)
    ensures CheckoutTotal(products, c + [l])
         == Some(CheckoutTotal(products, c).GetOr(0) + products[l.productId].price * l.quantity)
  {
    ViewCartTotalAddsLine(products, c, l);
    CheckoutTotalAddsLine(products, c, l);
  }

  /** When every product the cart names is active, the cart page and the checkout page agree. */
  lemma {:induction false} ViewAndCheckoutAgree(products: map<int, Product>, c: Cart)
    requires c != []
    requires forall i :: 0 <= i < |c| && c[i].productId in products ==>
      products[c[i].productId].status == Active
    ensures CheckoutTotal(products, c) == Some(ViewCartTotal(products, c))
  {
    AllActiveTotalsAgree(products, c);
  }

  lemma {:induction false} AllActiveTotalsAgree(products: map<int, Product>, c: Cart)
    requires forall i :: 0 <= i < |c| && c[i].productId in products ==>
      products[c[i].productId].status == Active
    ensures CartTotal(products, c, true) == CartTotal(products, c, false)
    decreases |c|
  {
    if |c| > 0 {
      assert forall i :: 0 <= i < |c[1..]| ==> c[1..][i] == c[i + 1];
      AllActiveTotalsAgree(products, c[1..]);
    }
  }

  /** Removing a line from a well-formed cart lowers either total by exactly that line's value. */
  lemma {:induction false} RemoveLowersTotal(products: map<int, Product>, c: Cart, id: int, activeOnly: bool)
    requires WellFormed(c)
    ensures CartTotal(products, RemoveFromCart(c, id), activeOnly)
         == CartTotal(products, c, activeOnly)
            - (match Get(c, id)
               case Some(q) => LineValue(products, CartLine(id, q), activeOnly)
               case None => 0)
    decreases |c|
  {
    if |c| > 0 {
      assert WellFormed(c[1..]) by {
        assert forall i :: 0 <= i < |c[1..]| ==> c[1..][i] == c[i + 1];
      }
      RemoveLowersTotal(products, c[1..], id, activeOnly);
      if c[0].productId == id {
        assert Get(c[1..], id) == None by {
          assert forall i :: 0 <= i < |c[1..]| ==> c[1..][i] == c[i + 1];
        }
      } else {
        var rest := RemoveFromCart(c[1..], id);
        assert ([c[0]] + rest)[1..] == rest;
      }
    }
  }
}

=== FILE: inventory.dfy ===
/**
 The stock mutator: the single read-check-write step that changes a
 product's stock, appends one ledger entry and applies the status rule.
 */
module Inventory {
  import opened Wrappers
  import opened Shop

  /** The arguments of one mutator call; `actor` is the admin id held by the session, if any. */
  datatype Adjustment = Adjustment(
    productId: int,
    change: int,
    changeType: ChangeType,
    referenceType: Option<string>,
    referenceId: Option<int>,
    notes: Option<string>,
    actor: Option<int>)

  /** The mutator's boolean answer together with the store it leaves behind. */
  datatype Mutation = Mutation(success: bool, store: Store)

  /** The ledger entry a successful call appends. */
  function EntryFor(a: Adjustment, previous: int): LogEntry {
    LogEntry(a.productId, a.changeType, a.change, previous, previous + a.change,
             a.referenceType, a.referenceId, a.notes, a.actor)
  }

  /**
   Fails, changing nothing, when the product is unknown or the stock would go
   negative; otherwise writes the new stock, logs the change and updates the
   status: out of stock at zero, active when stock leaves zero, else untouched.
   */
  function UpdateInventory(s: Store, a: Adjustment): (r: Mutation)
    ensures r.success <==>
      a.productId in s.products && s.products[a.productId].stock + a.change >= 0
    ensures !r.success ==> r.store == s
    ensures r.success ==> r.store.products.Keys == s.products.Keys
    ensures r.success ==>
      var p, p' := s.products[a.productId], r.store.products[a.productId];
      && (forall id :: id in s.products && id != a.productId ==>
            r.store.products[id] == s.products[id])
      && p'.stock == p.stock + a.change
      && p' == p.(stock := p'.stock, status := p'.status)
      && (p'.stock == 0 ==> p'.status == OutOfStock)
      && (p.stock == 0 && p'.stock > 0 ==> p'.status == Active)
      && (p.stock != 0 && p'.stock != 0 ==> p'.status == p.status)
      && r.store.log == s.log + [EntryFor(a, p.stock)]
      && r.store.orders == s.orders
      && r.store.items == s.items
  {
    if a.productId !in s.products then Mutation(false, s)
    else
      var p := s.products[a.productId];
      var newStock := p.stock + a.change;
      if newStock < 0 then Mutation(false, s)
      else
        var status :=
          if newStock == 0 then OutOfStock
          else if p.stock == 0 && newStock > 0 then Active
          else p.status;
        var p' := p.(stock := newStock, status := status);
        Mutation(true, s.(products := s.products[a.productId := p'],
                          log := s.log + [EntryFor(a, p.stock)]))
  }

  /** Every ledger entry's snapshots differ by its change and leave a non-negative stock. */
  ghost predicate LedgerConsistent(log: seq<LogEntry>) {
    forall i :: 0 <= i < |log| ==>
      log[i].newStock == log[i].previousStock + log[i].quantityChange && log[i].newStock >= 0
  }

  /** The mutator keeps stocks non-negative, the status rule and the ledger's arithmetic. */
  lemma UpdateInventoryKeepsInvariants(s: Store, a: Adjustment)
    ensures var s' := UpdateInventory(s, a).store;
      && (StocksNonNegative(s) ==> StocksNonNegative(s'))
      && (StatusTracksStock(s) ==> StatusTracksStock(s'))
      && (LedgerConsistent(s.log) ==> LedgerConsistent(s'.log))
  {
  }

  /** Runs the mutator over a sequence of calls, each on the store the previous one left. */
  function ApplyAll(s: Store, adjustments: seq<Adjustment>): Store
    decreases |adjustments|
  {
    if |adjustments| == 0 then s
    else ApplyAll(UpdateInventory(s, adjustments[0]).store, adjustments[1..])
  }

  /** The sum of the logged changes for one product. */
  function NetChange(entries: seq<LogEntry>, productId: int): int
    decreases |entries|
  {
    if |entries| == 0 then 0
    else (if entries[0].productId == productId then entries[0].quantityChange else 0)
         + NetChange(entries[1..], productId)
  }

  /**
   Over any sequence of mutator calls the ledger is only appended to, no
   product appears or disappears, and each product's stock has moved by exactly
   the sum of the changes the new ledger entries record for it.
   */
  lemma {:induction false} LedgerAccountsForStock(s: Store, adjustments: seq<Adjustment>)
    ensures var s' := ApplyAll(s, adjustments);
      && s'.products.Keys == s.products.Keys
      && |s.log| <= |s'.log|
      && s'.log[..|s.log|] == s.log
      && forall id :: id in s.products ==>
           s'.products[id].stock == s.products[id].stock + NetChange(s'.log[|s.log|..], id)
    decreases |adjustments|
  {
    if |adjustments| > 0 {
      var a := adjustments[0];
      var r := UpdateInventory(s, a);
      var s1 := r.store;
      LedgerAccountsForStock(s1, adjustments[1..]);
      var s' := ApplyAll(s, adjustments);
      assert s' == ApplyAll(s1, adjustments[1..]);
      if r.success {
        var e := EntryFor(a, s.products[a.productId].stock);
        assert s1.log == s.log + [e];
        assert s'.log[..|s1.log|] == s1.log;
        assert s'.log[..|s.log|] == s1.log[..|s.log|];
        assert s'.log[|s.log|..] == [e] + s'.log[|s1.log|..];
        forall id | id in s.products
          ensures s'.products[id].stock == s.products[id].stock + NetChange(s'.log[|s.log|..], id)
        {
          assert ([e] + s'.log[|s1.log|..])[1..] == s'.log[|s1.log|..];
        }
      }
    } else {
      assert s.log[|s.log|..] == [];
    }
  }

  /** Over any sequence of mutator calls stocks stay non-negative, the status rule holds and the ledger stays consistent. */
  lemma {:induction false} ApplyAllKeepsInvariants(s: Store, adjustments: seq<Adjustment>)
    requires StocksNonNegative(s) && StatusTracksStock(s) && LedgerConsistent(s.log)
    ensures var s' := ApplyAll(s, adjustments);
      StocksNonNegative(s') && StatusTracksStock(s') && LedgerConsistent(s'.log)
    decreases |adjustments|
  {
    if |adjustments| > 0 {
      UpdateInventoryKeepsInvariants(s, adjustments[0]);
      ApplyAllKeepsInvariants(UpdateInventory(s, adjustments[0]).store, adjustments[1..]);
    }
  }
}

=== FILE: orders.dfy ===
/**
 The order assembler. Two entry points share one persistence step:
 the checkout form drops unavailable cart lines and fails only when none is
 left, while the JSON API rejects the whole request at its first bad line.
 Both write the order row, one item per accepted line, and call the stock
 mutator once per line, ignoring its answer.
 */
module Orders {
  import opened Wrappers
  import opened Shop
  import Inventory
  import Carts

  /** Customer fields as the request carries them; a field counts only when present and non-empty. */
  datatype Customer = Customer(
    name: Option<string>,
    email: Option<string>,
    phone: Option<string>,
    shippingAddress: string)

  predicate Given(field: Option<string>) {
    field.Some? && field.value != ""
  }

  predicate Complete(c: Customer) {
    Given(c.name) && Given(c.email) && Given(c.phone)
  }

  /** A line the assembler accepted, with the product's name and unit price snapshotted. */
  datatype Draft = Draft(productId: int, productName: string, quantity: int, price: int, subtotal: int)

  datatype OrderError =
    | EmptyCart
    | NoItems
    | MissingFields
    | NothingAvailable
    | ProductUnavailable(productId: Option<int>)

  /** What the caller is handed back: order id, order number and total. */
  datatype Receipt = Receipt(orderId: int, orderNumber: string, total: int)

  /** The outcome of an order request together with the store it leaves behind. */
  datatype Placement = Placement(result: Result<Receipt, OrderError>, store: Store)

  /** The form path's outcome: as a `Placement`, plus the visitor's cart after the request. */
  datatype FormPlacement = FormPlacement(result: Result<Receipt, OrderError>, store: Store, cart: Carts.Cart)

  /** A line can be sold: the product exists and its stock covers the quantity. */
  predicate Available(products: map<int, Product>, id: int, quantity: int) {
    id in products && products[id].stock >= quantity
  }

  function DraftOf(products: map<int, Product>, id: int, quantity: int): Draft
    requires id in products
  {
    var p := products[id];
    Draft(id, p.name, quantity, p.price, p.price * quantity)
  }

  /** The exact order total: the sum of the line subtotals. */
  function Total(drafts: seq<Draft>): int
    decreases |drafts|
  {
    if |drafts| == 0 then 0 else drafts[0].subtotal + Total(drafts[1..])
  }

  /** The quantity the drafts ask of one product. */
  function Demand(drafts: seq<Draft>, id: int): int
    decreases |drafts|
  {
    if |drafts| == 0 then 0
    else (if drafts[0].productId == id then drafts[0].quantity else 0) + Demand(drafts[1..], id)
  }

  predicate DistinctProducts(drafts: seq<Draft>) {
    forall i, j :: 0 <= i < j < |drafts| ==> drafts[i].productId != drafts[j].productId
  }

  /**
   Each draft's product exists and the stock left after the earlier drafts of
   the same product still covers its quantity.
   */
  ghost predicate StockCovers(products: map<int, Product>, drafts: seq<Draft>) {
    forall i :: 0 <= i < |drafts| ==>
      && drafts[i].productId in products
      && products[drafts[i].productId].stock - Demand(drafts[..i], drafts[i].productId) >= drafts[i].quantity
  }

  function OrderRow(orderId: int, orderNumber: string, customer: Customer, total: int): Order
    requires Complete(customer)
  {
    Order(orderId, orderNumber, customer.name.value, customer.email.value, customer.phone.value,
          customer.shippingAddress, total, Confirmed, Paid)
  }

  function ItemOf(orderId: int, d: Draft): OrderItem {
    OrderItem(orderId, d.productId, d.productName, d.quantity, d.price, d.subtotal)
  }

  function ItemsOf(orderId: int, drafts: seq<Draft>): seq<OrderItem>
    decreases |drafts|
  {
    if |drafts| == 0 then [] else [ItemOf(orderId, drafts[0])] + ItemsOf(orderId, drafts[1..])
  }

  /** The mutator call made for one line: take the quantity out, as a sale referencing the order. */
  function SaleOf(orderId: int, d: Draft, notes: Option<string>, actor: Option<int>): Inventory.Adjustment {
    Inventory.Adjustment(d.productId, -d.quantity, Sale, Some(OrderReference), Some(orderId), notes, actor)
  }

  /** `purchases = purchases + q` on one product row; no row, no effect. */
  function AddPurchases(s: Store, id: int, q: int): (s': Store)
    ensures s'.products.Keys == s.products.Keys
    ensures forall k :: k in s.products && k != id ==> s'.products[k] == s.products[k]
    ensures id in s.products ==>
      s'.products[id] == s.products[id].(purchases := s.products[id].purchases + q)
    ensures s'.log == s.log && s'.orders == s.orders && s'.items == s.items
  {
    if id in s.products then
      var p := s.products[id];
      s.(products := s.products[id := p.(purchases := p.purchases + q)])
    else s
  }

  /**
   Persists one accepted line: the order item, then the mutator call (its
   answer ignored), then, on the form path, the purchase counter.
   */
  function PersistLine(s: Store, orderId: int, d: Draft, notes: Option<string>,
                       countPurchases: bool, actor: Option<int>): (s': Store)
    ensures s'.orders == s.orders
    ensures s'.items == s.items + [ItemOf(orderId, d)]
    ensures s'.products.Keys == s.products.Keys
    ensures |s.log| <= |s'.log| <= |s.log| + 1 && s'.log[..|s.log|] == s.log
    ensures forall id :: id in s.products && id != d.productId ==>
      s'.products[id] == s.products[id]
    ensures d.productId in s.products ==>
      var p, p' := s.products[d.productId], s'.products[d.productId];
      && p'.name == p.name && p'.price == p.price
      && p'.purchases == p.purchases + (if countPurchases then d.quantity else 0)
    ensures Available(s.products, d.productId, d.quantity) ==>
      var p, p' := s.products[d.productId], s'.products[d.productId];
      && p'.stock == p.stock - d.quantity
      && (p'.stock == 0 ==> p'.status == OutOfStock)
      && (p.stock == 0 && p'.stock > 0 ==> p'.status == Active)
      && (p.stock != 0 && p'.stock != 0 ==> p'.status == p.status)
      && s'.log == s.log + [Inventory.EntryFor(SaleOf(orderId, d, notes, actor), s.products[d.productId].stock)]
    ensures !Available(s.products, d.productId, d.quantity) ==>
      && s'.log == s.log
      && (d.productId in s.products ==>
            var p := s.products[d.productId];
            s'.products[d.productId] == p.(purchases := p.purchases + (if countPurchases then d.quantity else 0)))
  {
    var s1 := s.(items := s.items + [ItemOf(orderId, d)]);
    var s2 := Inventory.UpdateInventory(s1, SaleOf(orderId, d, notes, actor)).store;
    if countPurchases then AddPurchases(s2, d.productId, d.quantity) else s2
  }

  /** Persisting one line keeps every stock non-negative and the status tracking zero stock. */
  lemma PersistLineKeepsInvariants(s: Store, orderId: int, d: Draft, notes: Option<string>,
                                   countPurchases: bool, actor: Option<int>)
    ensures var s' := PersistLine(s, orderId, d, notes, countPurchases, actor);
      && (StocksNonNegative(s) ==> StocksNonNegative(s'))
      && (StatusTracksStock(s) ==> StatusTracksStock(s'))
  {
    var s1 := s.(items := s.items + [ItemOf(orderId, d)]);
    Inventory.UpdateInventoryKeepsInvariants(s1, SaleOf(orderId, d, notes, actor));
  }

  /** Persists the accepted lines in order. */
  function Persist(s: Store, orderId: int, drafts: seq<Draft>, notes: Option<string>,
                   countPurchases: bool, actor: Option<int>): (s': Store)
    ensures s'.orders == s.orders
    ensures s'.items == s.items + ItemsOf(orderId, drafts)
    ensures s'.products.Keys == s.products.Keys
    ensures |s.log| <= |s'.log| <= |s.log| + |drafts|
    ensures s'.log[..|s.log|] == s.log
    ensures forall id :: id in s.products ==>
      s'.products[id].purchases
      == s.products[id].purchases + (if countPurchases then Demand(drafts, id) else 0)
    ensures forall id :: id in s.products ==>
      s'.products[id].name == s.products[id].name && s'.products[id].price == s.products[id].price
    decreases |drafts|
  {
    if |drafts| == 0 then s
    else
      var s1 := PersistLine(s, orderId, drafts[0], notes, countPurchases, actor);
      var s' := Persist(s1, orderId, drafts[1..], notes, countPurchases, actor);
      ItemsOfFront(s.items, orderId, drafts);
      PrefixOfPrefix(s.log, s1.log, s'.log);
      s'
  }

  /** `PersistLeavesOthers` for every product at once. */
  lemma PersistLeavesUnnamed(s: Store, orderId: int, drafts: seq<Draft>, notes: Option<string>,
                             countPurchases: bool, actor: Option<int>)
    ensures var s' := Persist(s, orderId, drafts, notes, countPurchases, actor);
      forall id :: id in s.products && (forall d :: d in drafts ==> d.productId != id) ==>
        s'.products[id] == s.products[id]
  {
    forall id | id in s.products && (forall d :: d in drafts ==> d.productId != id)
      ensures Persist(s, orderId, drafts, notes, countPurchases, actor).products[id] == s.products[id]
    {
      PersistLeavesOthers(s, orderId, drafts, notes, countPurchases, actor, id);
    }
  }

  lemma ItemsOfFront(items: seq<OrderItem>, orderId: int, drafts: seq<Draft>)
    requires |drafts| > 0
    ensures items + [ItemOf(orderId, drafts[0])] + ItemsOf(orderId, drafts[1..]) == items + ItemsOf(orderId, drafts)
  {
  }

  /** Persisting the lines leaves a product that no line names exactly as it was. */
  lemma {:induction false} PersistLeavesOthers(s: Store, orderId: int, drafts: seq<Draft>, notes: Option<string>,
                                               countPurchases: bool, actor: Option<int>, id: int)
    requires id in s.products
    requires forall d :: d in drafts ==> d.productId != id
    ensures Persist(s, orderId, drafts, notes, countPurchases, actor).products[id] == s.products[id]
    decreases |drafts|
  {
    if |drafts| > 0 {
      assert drafts[0] in drafts;
      assert forall d :: d in drafts[1..] ==> d in drafts;
      var s1 := PersistLine(s, orderId, drafts[0], notes, countPurchases, actor);
      PersistLeavesOthers(s1, orderId, drafts[1..], notes, countPurchases, actor, id);
    }
  }

  /** Persisting the lines keeps every stock non-negative and the status tracking zero stock. */
  lemma {:induction false} PersistKeepsInvariants(s: Store, orderId: int, drafts: seq<Draft>, notes: Option<string>,
                                                  countPurchases: bool, actor: Option<int>)
    ensures var s' := Persist(s, orderId, drafts, notes, countPurchases, actor);
      && (StocksNonNegative(s) ==> StocksNonNegative(s'))
      && (StatusTracksStock(s) ==> StatusTracksStock(s'))
    decreases |drafts|
  {
    if |drafts| > 0 {
      PersistLineKeepsInvariants(s, orderId, drafts[0], notes, countPurchases, actor);
      var s1 := PersistLine(s, orderId, drafts[0], notes, countPurchases, actor);
      PersistKeepsInvariants(s1, orderId, drafts[1..], notes, countPurchases, actor);
    }
  }

  /** A prefix of a prefix is a prefix. */
  lemma PrefixOfPrefix<T>(a: seq<T>, b: seq<T>, c: seq<T>)
    requires |a| <= |b| <= |c| && b[..|a|] == a && c[..|b|] == b
    ensures c[..|a|] == a
  {
    assert c[..|a|] == c[..|b|][..|a|];
  }

  /** What follows `a` in a log extending `a + [e]` is `e` and then what follows `a + [e]`. */
  lemma SuffixAfterEntry<T>(a: seq<T>, e: T, c: seq<T>)
    requires |a| + 1 <= |c| && c[..|a| + 1] == a + [e]
    ensures c[|a|..] == [e] + c[|a| + 1..]
  {
    assert c[|a|] == (a + [e])[|a|];
  }

  lemma {:induction false} DemandOfPrefix(drafts: seq<Draft>, i: nat, id: int)
    requires i < |drafts|
    ensures Demand(drafts[..i + 1], id)
         == (if drafts[0].productId == id then drafts[0].quantity else 0) + Demand(drafts[1..][..i], id)
  {
    assert drafts[..i + 1][1..] == drafts[1..][..i];
  }

  /** The ledger entries are one sale per draft, in order, each taking out the draft's quantity for the order. */
  ghost predicate SalesLogged(entries: seq<LogEntry>, orderId: int, drafts: seq<Draft>) {
    && |entries| == |drafts|
    && forall k :: 0 <= k < |drafts| ==>
         && entries[k].productId == drafts[k].productId
         && entries[k].quantityChange == -drafts[k].quantity
         && entries[k].changeType == Sale
         && entries[k].referenceType == Some(OrderReference)
         && entries[k].referenceId == Some(orderId)
  }

  lemma SalesLoggedCons(e: LogEntry, entries: seq<LogEntry>, orderId: int, drafts: seq<Draft>)
    requires |drafts| > 0 && SalesLogged(entries, orderId, drafts[1..])
    requires e.productId == drafts[0].productId && e.quantityChange == -drafts[0].quantity
    requires e.changeType == Sale && e.referenceType == Some(OrderReference) && e.referenceId == Some(orderId)
    ensures SalesLogged([e] + entries, orderId, drafts)
  {
    assert forall k :: 0 < k < |drafts| ==> ([e] + entries)[k] == entries[k - 1] && drafts[k] == drafts[1..][k - 1];
  }

  /** Once the first draft is sold, the stock left covers the remaining drafts. */
  lemma CoveredAfterFirst(products: map<int, Product>, products': map<int, Product>, drafts: seq<Draft>)
    requires |drafts| > 0 && StockCovers(products, drafts)
    requires products'.Keys == products.Keys
    requires products'[drafts[0].productId].stock == products[drafts[0].productId].stock - drafts[0].quantity
    requires forall id :: id in products && id != drafts[0].productId ==> products'[id].stock == products[id].stock
    ensures StockCovers(products', drafts[1..])
  {
    forall i | 0 <= i < |drafts[1..]|
      ensures drafts[1..][i].productId in products'
      ensures products'[drafts[1..][i].productId].stock - Demand(drafts[1..][..i], drafts[1..][i].productId)
              >= drafts[1..][i].quantity
    {
      assert drafts[1..][i] == drafts[i + 1];
      DemandOfPrefix(drafts, i, drafts[i + 1].productId);
    }
  }

  /**
   When the stock covers every line, every mutator call succeeds: the ledger
   gains exactly one sale entry per line, in order.
   */
  lemma {:induction false} PersistCoveredLogsEverySale(s: Store, orderId: int, drafts: seq<Draft>,
                                                       notes: Option<string>, countPurchases: bool, actor: Option<int>)
    requires StockCovers(s.products, drafts)
    ensures var s' := Persist(s, orderId, drafts, notes, countPurchases, actor);
      SalesLogged(s'.log[|s.log|..], orderId, drafts)
    decreases |drafts|
  {
    var s' := Persist(s, orderId, drafts, notes, countPurchases, actor);
    if |drafts| == 0 {
      assert s'.log[|s.log|..] == [];
    } else {
      var d := drafts[0];
      assert drafts[..0] == [];
      var s1 := PersistLine(s, orderId, d, notes, countPurchases, actor);
      assert Available(s.products, d.productId, d.quantity);
      CoveredAfterFirst(s.products, s1.products, drafts);
      PersistCoveredLogsEverySale(s1, orderId, drafts[1..], notes, countPurchases, actor);
      assert s' == Persist(s1, orderId, drafts[1..], notes, countPurchases, actor);
      var e := s1.log[|s.log|];
      assert s1.log == s.log + [e];
      SuffixAfterEntry(s.log, e, s'.log);
      SalesLoggedCons(e, s'.log[|s1.log|..], orderId, drafts);
    }
  }

  /**
   When the stock covers every line, each product's stock falls, and on the
   form path its purchase counter rises, by exactly the quantity the lines ask of it.
   */
  lemma {:induction false} PersistCoveredMovesStock(s: Store, orderId: int, drafts: seq<Draft>,
                                                    notes: Option<string>, countPurchases: bool, actor: Option<int>)
    requires StockCovers(s.products, drafts)
    ensures var s' := Persist(s, orderId, drafts, notes, countPurchases, actor);
      forall id :: id in s.products ==>
        && s'.products[id].stock == s.products[id].stock - Demand(drafts, id)
        && s'.products[id].purchases
           == s.products[id].purchases + (if countPurchases then Demand(drafts, id) else 0)
    decreases |drafts|
  {
    if |drafts| > 0 {
      var d := drafts[0];
      assert drafts[..0] == [];
      var s1 := PersistLine(s, orderId, d, notes, countPurchases, actor);
      assert Available(s.products, d.productId, d.quantity);
      CoveredAfterFirst(s.products, s1.products, drafts);
      PersistCoveredMovesStock(s1, orderId, drafts[1..], notes, countPurchases, actor);
      var s' := Persist(s, orderId, drafts, notes, countPurchases, actor);
      assert s' == Persist(s1, orderId, drafts[1..], notes, countPurchases, actor);
      forall id | id in s.products
        ensures s'.products[id].stock == s.products[id].stock - Demand(drafts, id)
        ensures s'.products[id].purchases
                == s.products[id].purchases + (if countPurchases then Demand(drafts, id) else 0)
      {
        assert Demand(drafts, id) == (if d.productId == id then d.quantity else 0) + Demand(drafts[1..], id);
      }
    }
  }

  // ---------------------------------------------------------------------------
  // Checkout form

  /** The form path's filter: keep the lines whose product exists and whose stock covers them. */
  function KeptLines(products: map<int, Product>, cart: Carts.Cart): (drafts: seq<Draft>)
    ensures |drafts| <= |cart|
    ensures drafts == [] <==>
      forall i :: 0 <= i < |cart| ==> !Available(products, cart[i].productId, cart[i].quantity)
    ensures forall d :: d in drafts ==>
      Available(products, d.productId, d.quantity) && d == DraftOf(products, d.productId, d.quantity)
    ensures forall i :: 0 <= i < |cart| && Available(products, cart[i].productId, cart[i].quantity) ==>
      DraftOf(products, cart[i].productId, cart[i].quantity) in drafts
    ensures forall d :: d in drafts ==> Carts.Get(cart, d.productId).Some?
    ensures Carts.WellFormed(cart) ==>
      forall d :: d in drafts ==> Carts.Get(cart, d.productId) == Some(d.quantity)
    decreases |cart|
  {
    if |cart| == 0 then []
    else
      var l := cart[0];
      var rest := KeptLines(products, cart[1..]);
      assert forall i :: 0 < i < |cart| ==> cart[i] == cart[1..][i - 1];
      Carts.ConsFacts(l, cart[1..]);
      assert cart == [l] + cart[1..];
      if Available(products, l.productId, l.quantity) then [DraftOf(products, l.productId, l.quantity)] + rest
      else rest
  }

  /** A one-line cart keeps its line exactly when the line is available. */
  lemma KeptLinesOfOneLine(products: map<int, Product>, l: Carts.CartLine)
    ensures KeptLines(products, [l])
         == if Available(products, l.productId, l.quantity) then [DraftOf(products, l.productId, l.quantity)] else []
  {
  }

  /**
   The kept lines follow the cart's order: the lines kept from a cart split in
   two are those kept from the first part followed by those kept from the second.
   */
  lemma {:induction false} KeptLinesInCartOrder(products: map<int, Product>, c1: Carts.Cart, c2: Carts.Cart)
    ensures KeptLines(products, c1 + c2) == KeptLines(products, c1) + KeptLines(products, c2)
    decreases |c1|
  {
    if |c1| == 0 {
      assert c1 + c2 == c2;
    } else {
      assert (c1 + c2)[0] == c1[0] && (c1 + c2)[1..] == c1[1..] + c2;
      KeptLinesInCartOrder(products, c1[1..], c2);
    }
  }

  /** A well-formed cart yields drafts for distinct products. */
  lemma {:induction false} KeptLinesDistinct(products: map<int, Product>, cart: Carts.Cart)
    requires Carts.WellFormed(cart)
    ensures DistinctProducts(KeptLines(products, cart))
    decreases |cart|
  {
    if |cart| > 0 {
      var l := cart[0];
      assert cart == [l] + cart[1..];
      Carts.ConsFacts(l, cart[1..]);
      KeptLinesDistinct(products, cart[1..]);
      var rest := KeptLines(products, cart[1..]);
      if Available(products, l.productId, l.quantity) {
        assert Carts.WellFormed(cart[1..]) && Carts.Get(cart[1..], l.productId) == None;
        forall k | 0 <= k < |rest|
          ensures rest[k].productId != l.productId
        {
          assert rest[k] in rest;
        }
        var ds := [DraftOf(products, l.productId, l.quantity)] + rest;
        assert forall k :: 0 < k < |ds| ==> ds[k] == rest[k - 1];
      }
    }
  }

  lemma {:induction false} DemandAbsent(drafts: seq<Draft>, id: int)
    requires forall d :: d in drafts ==> d.productId != id
    ensures Demand(drafts, id) == 0
    decreases |drafts|
  {
    if |drafts| > 0 {
      assert forall d :: d in drafts[1..] ==> d in drafts;
      DemandAbsent(drafts[1..], id);
    }
  }

  /** Distinct products each covered on their own are covered together. */
  lemma DistinctCovered(products: map<int, Product>, drafts: seq<Draft>)
    requires DistinctProducts(drafts)
    requires forall d :: d in drafts ==> Available(products, d.productId, d.quantity)
    ensures StockCovers(products, drafts)
  {
    forall i | 0 <= i < |drafts|
      ensures Demand(drafts[..i], drafts[i].productId) == 0
    {
      forall d | d in drafts[..i]
        ensures d.productId != drafts[i].productId
      {
        var j :| 0 <= j < i && drafts[..i][j] == d;
        assert drafts[j] == d;
      }
      DemandAbsent(drafts[..i], drafts[i].productId);
    }
  }

  /**
   `place_order`: refuse an empty cart, then missing customer fields; keep
   the available lines and refuse when none is left; otherwise write a
   confirmed, paid order for the exact total, its items, the stock sales
   and the purchase counters.
   */
  function PlaceOrder(s: Store, cart: Carts.Cart, customer: Customer,
                      orderId: int, orderNumber: string, actor: Option<int>): (r: FormPlacement)
    ensures r.result.Failure? ==> r.store == s && r.cart == cart
    ensures r.result.Success? ==> r.cart == []
    ensures cart == [] ==> r.result == Failure(EmptyCart)
    ensures cart != [] && !Complete(customer) ==> r.result == Failure(MissingFields)
    ensures r.result.Success? <==>
      && cart != [] && Complete(customer)
      && exists i :: 0 <= i < |cart| && Available(s.products, cart[i].productId, cart[i].quantity)
    ensures cart != [] && Complete(customer) && r.result.Failure? ==> r.result.error == NothingAvailable
    ensures r.result.Success? ==>
      var kept := KeptLines(s.products, cart);
      && r.result.value == Receipt(orderId, orderNumber, Total(kept))
      && r.store.orders == s.orders + [OrderRow(orderId, orderNumber, customer, Total(kept))]
      && r.store.items == s.items + ItemsOf(orderId, kept)
    ensures r.store.products.Keys == s.products.Keys
    ensures forall id :: id in s.products ==>
      r.store.products[id].name == s.products[id].name && r.store.products[id].price == s.products[id].price
    ensures forall id :: id in s.products && Carts.Get(cart, id).None? ==> r.store.products[id] == s.products[id]
    ensures StocksNonNegative(s) ==> StocksNonNegative(r.store)
    ensures StatusTracksStock(s) ==> StatusTracksStock(r.store)
  {
    if cart == [] then FormPlacement(Failure(EmptyCart), s, cart)
    else if !Complete(customer) then FormPlacement(Failure(MissingFields), s, cart)
    else
      var kept := KeptLines(s.products, cart);
      if kept == [] then FormPlacement(Failure(NothingAvailable), s, cart)
      else
        var total := Total(kept);
        var s1 := s.(orders := s.orders + [OrderRow(orderId, orderNumber, customer, total)]);
        var s2 := Persist(s1, orderId, kept, Some("Order " + orderNumber), true, actor);
        PersistKeepsInvariants(s1, orderId, kept, Some("Order " + orderNumber), true, actor);
        PersistLeavesUncarted(s1, s.products, cart, orderId, Some("Order " + orderNumber), actor);
        FormPlacement(Success(Receipt(orderId, orderNumber, total)), s2, [])
  }

  /** Persisting the kept lines of a cart leaves a product the cart does not hold exactly as it was. */
  lemma PersistLeavesUncarted(s: Store, products: map<int, Product>, cart: Carts.Cart,
                              orderId: int, notes: Option<string>, actor: Option<int>)
    ensures var s' := Persist(s, orderId, KeptLines(products, cart), notes, true, actor);
      forall id :: id in s.products && Carts.Get(cart, id).None? ==> s'.products[id] == s.products[id]
  {
    PersistLeavesUnnamed(s, orderId, KeptLines(products, cart), notes, true, actor);
  }

  /**
   On the form path every kept line is sold in full: the ledger gains one
   sale entry per kept line, and each product's stock falls and its purchase
   counter rises by the quantity its kept line asks.
   */
  lemma FormOrderSellsEveryKeptLine(s: Store, cart: Carts.Cart, customer: Customer,
                                    orderId: int, orderNumber: string, actor: Option<int>)
    requires Carts.WellFormed(cart)
    requires PlaceOrder(s, cart, customer, orderId, orderNumber, actor).result.Success?
    ensures var kept, s' := KeptLines(s.products, cart), PlaceOrder(s, cart, customer, orderId, orderNumber, actor).store;
      && SalesLogged(s'.log[|s.log|..], orderId, kept)
      && (forall id :: id in s.products ==>
            && s'.products[id].stock == s.products[id].stock - Demand(kept, id)
            && s'.products[id].purchases == s.products[id].purchases + Demand(kept, id))
  {
    var kept := KeptLines(s.products, cart);
    KeptLinesDistinct(s.products, cart);
    DistinctCovered(s.products, kept);
    var s1 := s.(orders := s.orders + [OrderRow(orderId, orderNumber, customer, Total(kept))]);
    PersistCoveredLogsEverySale(s1, orderId, kept, Some("Order " + orderNumber), true, actor);
    PersistCoveredMovesStock(s1, orderId, kept, Some("Order " + orderNumber), true, actor);
  }

  lemma {:induction false} KeptAllTotal(products: map<int, Product>, cart: Carts.Cart)
    requires forall i :: 0 <= i < |cart| ==> Available(products, cart[i].productId, cart[i].quantity)
    ensures Total(KeptLines(products, cart)) == Carts.CartTotal(products, cart, false)
    decreases |cart|
  {
    if |cart| > 0 {
      assert forall i :: 0 <= i < |cart[1..]| ==> cart[1..][i] == cart[i + 1];
      KeptAllTotal(products, cart[1..]);
      var rest := KeptLines(products, cart[1..]);
      assert ([DraftOf(products, cart[0].productId, cart[0].quantity)] + rest)[1..] == rest;
    }
  }

  /** When every cart line is available, the order is placed for the total the checkout page showed. */
  lemma PlacedTotalMatchesCheckout(s: Store, cart: Carts.Cart, customer: Customer,
                                   orderId: int, orderNumber: string, actor: Option<int>)
    requires cart != [] && Complete(customer)
    requires forall i :: 0 <= i < |cart| ==> Available(s.products, cart[i].productId, cart[i].quantity)
    ensures var r := PlaceOrder(s, cart, customer, orderId, orderNumber, actor);
      r.result.Success? && Carts.CheckoutTotal(s.products, cart) == Some(r.result.value.total)
  {
    assert Available(s.products, cart[0].productId, cart[0].quantity);
    KeptAllTotal(s.products, cart);
  }

  // ---------------------------------------------------------------------------
  // JSON API

  /** One entry of the request's `items` list; either key may be absent. */
  datatype ApiLine = ApiLine(productId: Option<int>, quantity: Option<int>)

  /** The request body's fields the handler reads; `items` may be absent. */
  datatype ApiRequest = ApiRequest(customer: Customer, items: Option<seq<ApiLine>>)

  /** An absent quantity means one. */
  function Quantity(l: ApiLine): int {
    l.quantity.GetOr(1)
  }

  /** The quantity earlier request lines ask of one product. */
  function LineDemand(lines: seq<ApiLine>, id: int): int
    decreases |lines|
  {
    if |lines| == 0 then 0
    else (if lines[0].productId == Some(id) then Quantity(lines[0]) else 0) + LineDemand(lines[1..], id)
  }

  /**
   Whether a request line passes validation. As written (`checked` false) the
   line is compared with the stock alone; `checked` also subtracts what the
   earlier lines of the same request ask of that product.
   */
  predicate LineOk(products: map<int, Product>, earlier: seq<ApiLine>, l: ApiLine, checked: bool) {
    && l.productId.Some?
    && l.productId.value in products
    && products[l.productId.value].stock - (if checked then LineDemand(earlier, l.productId.value) else 0)
       >= Quantity(l)
  }

  predicate AllLinesOk(products: map<int, Product>, lines: seq<ApiLine>, checked: bool) {
    forall i :: 0 <= i < |lines| ==> LineOk(products, lines[..i], lines[i], checked)
  }

  /** Validates the lines in order, stopping at the first that fails. */
  function ValidateApi(products: map<int, Product>, lines: seq<ApiLine>, checked: bool): (r: Result<seq<Draft>, OrderError>)
    ensures r.Success? <==> AllLinesOk(products, lines, checked)
    ensures r.Success? ==>
      && |r.value| == |lines|
      && forall i :: 0 <= i < |lines| ==>
           && LineOk(products, lines[..i], lines[i], checked)
           && r.value[i] == DraftOf(products, lines[i].productId.value, Quantity(lines[i]))
    ensures r.Failure? ==>
      exists i :: 0 <= i < |lines|
        && !LineOk(products, lines[..i], lines[i], checked)
        && AllLinesOk(products, lines[..i], checked)
        && r.error == ProductUnavailable(lines[i].productId)
    decreases |lines|
  {
    if |lines| == 0 then Success([])
    else
      var n := |lines| - 1;
      var init := lines[..n];
      assert forall i :: 0 <= i < n ==> init[..i] == lines[..i] && init[i] == lines[i];
      match ValidateApi(products, init, checked)
      case Failure(e) =>
        assert forall i :: 0 <= i < n ==> init[..i][..] == lines[..i][..] && lines[..i] == init[..i];
        Failure(e)
      case Success(ds) =>
        if LineOk(products, init, lines[n], checked) then
          Success(ds + [DraftOf(products, lines[n].productId.value, Quantity(lines[n]))])
        else
          assert lines[..n] == init;
          Failure(ProductUnavailable(lines[n].productId))
  }

  /** Some line of the request names the product. */
  predicate Names(lines: seq<ApiLine>, id: int) {
    exists i :: 0 <= i < |lines| && lines[i].productId == Some(id)
  }

  /** Every validated line's product is named by the request. */
  lemma ValidatedNamesRequested(products: map<int, Product>, lines: seq<ApiLine>, checked: bool)
    requires ValidateApi(products, lines, checked).Success?
    ensures forall d :: d in ValidateApi(products, lines, checked).value ==> Names(lines, d.productId)
  {
    var ds := ValidateApi(products, lines, checked).value;
    forall d | d in ds
      ensures Names(lines, d.productId)
    {
      var i :| 0 <= i < |ds| && ds[i] == d;
      assert lines[i].productId == Some(d.productId);
    }
  }

  predicate HasItems(request: Option<ApiRequest>) {
    request.Some? && request.value.items.Some? && request.value.items.value != []
  }

  /**
   `api_create_order`: refuse a request without items, then missing customer
   fields, then the first unavailable line, all before anything is written;
   otherwise write a confirmed, paid order for the exact total, its items and
   the stock sales. `checked` selects the cumulative stock check.
   */
  function CreateOrderApi(s: Store, request: Option<ApiRequest>, orderId: int, orderNumber: string,
                          actor: Option<int>, checked: bool): (r: Placement)
    ensures r.result.Failure? ==> r.store == s
    ensures !HasItems(request) ==> r.result == Failure(NoItems)
    ensures HasItems(request) && !Complete(request.value.customer) ==> r.result == Failure(MissingFields)
    ensures r.result.Success? <==>
      && HasItems(request) && Complete(request.value.customer)
      && AllLinesOk(s.products, request.value.items.value, checked)
    ensures r.result.Success? ==>
      var ds := ValidateApi(s.products, request.value.items.value, checked).value;
      && r.result.value == Receipt(orderId, orderNumber, Total(ds))
      && r.store.orders == s.orders + [OrderRow(orderId, orderNumber, request.value.customer, Total(ds))]
      && r.store.items == s.items + ItemsOf(orderId, ds)
    ensures HasItems(request) && Complete(request.value.customer) && r.result.Failure? ==>
      r.result == Failure(ValidateApi(s.products, request.value.items.value, checked).error)
    ensures r.store.products.Keys == s.products.Keys
    ensures forall id :: id in s.products ==> r.store.products[id].purchases == s.products[id].purchases
    ensures forall id :: id in s.products ==>
      r.store.products[id].name == s.products[id].name && r.store.products[id].price == s.products[id].price
    ensures HasItems(request) ==>
      forall id :: id in s.products && !Names(request.value.items.value, id) ==> r.store.products[id] == s.products[id]
    ensures StocksNonNegative(s) ==> StocksNonNegative(r.store)
    ensures StatusTracksStock(s) ==> StatusTracksStock(r.store)
  {
    if !HasItems(request) then Placement(Failure(NoItems), s)
    else if !Complete(request.value.customer) then Placement(Failure(MissingFields), s)
    else
      match ValidateApi(s.products, request.value.items.value, checked)
      case Failure(e) => Placement(Failure(e), s)
      case Success(ds) =>
        var total := Total(ds);
        var s1 := s.(orders := s.orders + [OrderRow(orderId, orderNumber, request.value.customer, total)]);
        var s2 := Persist(s1, orderId, ds, None, false, actor);
        PersistKeepsInvariants(s1, orderId, ds, None, false, actor);
        ValidatedNamesRequested(s.products, request.value.items.value, checked);
        PersistLeavesUnnamed(s1, orderId, ds, None, false, actor);
        Placement(Success(Receipt(orderId, orderNumber, total)), s2)
  }

  lemma {:induction false} DemandMatches(drafts: seq<Draft>, lines: seq<ApiLine>, id: int)
    requires |drafts| == |lines|
    requires forall i :: 0 <= i < |lines| ==>
      lines[i].productId == Some(drafts[i].productId) && drafts[i].quantity == Quantity(lines[i])
    ensures Demand(drafts, id) == LineDemand(lines, id)
    decreases |lines|
  {
    if |lines| > 0 {
      DemandMatches(drafts[1..], lines[1..], id);
    }
  }

  /**
   Every line of a placed API order is sold in full when the request names
   each product once, or always under the cumulative check: the ledger gains
   one sale per line and each product's stock falls by what the request asks
   of it. The purchase counters are left alone.
   */
  lemma ApiOrderSellsEveryLine(s: Store, request: Option<ApiRequest>, orderId: int, orderNumber: string,
                               actor: Option<int>, checked: bool)
    requires CreateOrderApi(s, request, orderId, orderNumber, actor, checked).result.Success?
    requires checked || forall i, j :: 0 <= i < j < |request.value.items.value| ==>
      request.value.items.value[i].productId != request.value.items.value[j].productId
    ensures var lines := request.value.items.value;
      var ds, s' := ValidateApi(s.products, lines, checked).value,
                    CreateOrderApi(s, request, orderId, orderNumber, actor, checked).store;
      && SalesLogged(s'.log[|s.log|..], orderId, ds)
      && forall id :: id in s.products ==>
           && s'.products[id].stock == s.products[id].stock - LineDemand(lines, id)
           && s'.products[id].purchases == s.products[id].purchases
  {
    var lines := request.value.items.value;
    var ds := ValidateApi(s.products, lines, checked).value;
    ValidatedLinesCovered(s.products, lines, checked);
    var s1 := s.(orders := s.orders + [OrderRow(orderId, orderNumber, request.value.customer, Total(ds))]);
    PersistCoveredLogsEverySale(s1, orderId, ds, None, false, actor);
    PersistCoveredMovesStock(s1, orderId, ds, None, false, actor);
  }

  /**
   Validated lines that name each product once, or that passed the cumulative
   check, are covered by the stock, and ask of each product what the request asks.
   */
  lemma ValidatedLinesCovered(products: map<int, Product>, lines: seq<ApiLine>, checked: bool)
    requires ValidateApi(products, lines, checked).Success?
    requires checked || forall i, j :: 0 <= i < j < |lines| ==> lines[i].productId != lines[j].productId
    ensures var ds := ValidateApi(products, lines, checked).value;
      && StockCovers(products, ds)
      && forall id :: Demand(ds, id) == LineDemand(lines, id)
  {
    var ds := ValidateApi(products, lines, checked).value;
    if checked {
      forall i | 0 <= i < |ds|
        ensures Demand(ds[..i], ds[i].productId) == LineDemand(lines[..i], ds[i].productId)
      {
        DemandMatches(ds[..i], lines[..i], ds[i].productId);
      }
    } else {
      DistinctCovered(products, ds);
    }
    forall id
      ensures Demand(ds, id) == LineDemand(lines, id)
    {
      DemandMatches(ds, lines, id);
    }
  }

  /** A request naming one product, with one unit in stock, twice. */
  function OversellRequest(): Option<ApiRequest> {
    var line := ApiLine(Some(1), None);
    Some(ApiRequest(Customer(Some("Asha"), Some("asha@example.com"), Some("9800000000"), ""), Some([line, line])))
  }

  function OneMugStore(): Store {
    Store(map[1 := Product("Mug", 25000, 1, Active, 0)], [], [], [])
  }

  /**
   As written, the API validates each line against the stock alone, so a
   request naming the last unit twice is placed for two units: two items and
   the full total are written, but the second decrement fails silently and
   the ledger records only one sale.
   */
  lemma ApiOversells()
    ensures var r := CreateOrderApi(OneMugStore(), OversellRequest(), 7, "SL-1", None, false);
      && r.result == Success(Receipt(7, "SL-1", 50000))
      && |r.store.items| == 2
      && r.store.items[0].quantity + r.store.items[1].quantity == 2
      && |r.store.log| == 1
      && r.store.products[1].stock == 0
  {
    var lines := OversellRequest().value.items.value;
    assert lines[..0] == [] && lines[..1] == [lines[0]];
  }

  /** With the cumulative check, the same request is refused and nothing is written. */
  lemma CheckedApiRefusesOversell()
    ensures var r := CreateOrderApi(OneMugStore(), OversellRequest(), 7, "SL-1", None, true);
      r.result == Failure(ProductUnavailable(Some(1))) && r.store == OneMugStore()
  {
    var s := OneMugStore();
    var lines := OversellRequest().value.items.value;
    assert lines[..1] == [lines[0]];
    assert LineDemand(lines[..1], 1) == 1;
    assert !LineOk(s.products, lines[..1], lines[1], true);
  }

  /**
   Ordering all five units of a product through the form sells them: the
   stock reaches zero, the product is marked out of stock and the ledger
   records one sale of five.
   */
  lemma FormSellsLastUnits()
    ensures var s := Store(map[3 := Product("Lamp", 120000, 5, Active, 2)], [], [], []);
      var customer := Customer(Some("Ravi"), Some("ravi@example.com"), Some("9811111111"), "Pune");
      var r := PlaceOrder(s, [Carts.CartLine(3, 5)], customer, 11, "SL-2", None);
      && r.result == Success(Receipt(11, "SL-2", 600000))
      && r.store.products[3].stock == 0
      && r.store.products[3].status == OutOfStock
      && r.store.products[3].purchases == 7
      && |r.store.log| == 1
      && r.store.log[0].quantityChange == -5
      && r.store.log[0].previousStock == 5 && r.store.log[0].newStock == 0
  {
    var s := Store(map[3 := Product("Lamp", 120000, 5, Active, 2)], [], [], []);
    var cart := [Carts.CartLine(3, 5)];
    var kept := KeptLines(s.products, cart);
    assert cart[1..] == [];
    assert kept == [Draft(3, "Lamp", 5, 120000, 600000)];
    assert kept[1..] == [];
    var customer := Customer(Some("Ravi"), Some("ravi@example.com"), Some("9811111111"), "Pune");
    var s1 := s.(orders := s.orders + [OrderRow(11, "SL-2", customer, Total(kept))]);
    var notes := Some("Order " + "SL-2");
    var s2 := PersistLine(s1, 11, kept[0], notes, true, None);
    assert Persist(s1, 11, kept, notes, true, None) == Persist(s2, 11, [], notes, true, None);
    assert s2.log == [Inventory.EntryFor(SaleOf(11, kept[0], notes, None), 5)];
    assert Total(kept) == 600000;
  }
}

=== FILE: shop.dfy ===
/**
 The store the web application reads and writes, with the relational tables
 replaced by one immutable value: products keyed by id, the append-only
 inventory log, and the order and order-item rows in insertion order.
 Money is held in integer minor units (paise), so every sum is exact.
 */
module Shop {
  import opened Wrappers

  /** Product statuses are free text; the inventory code writes only these two. */
  const Active: string := "active"
  const OutOfStock: string := "out_of_stock"

  /** Order and payment statuses written when an order is placed. */
  const Confirmed: string := "confirmed"
  const Paid: string := "paid"

  /** The reference type the order flows attach to their ledger entries. */
  const OrderReference: string := "order"

  /** The columns of a product row that the core reads or writes. */
  datatype Product = Product(
    name: string,
    price: int,       // minor units
    stock: int,
    status: string,
    purchases: int)

  datatype ChangeType = StockIn | StockOut | Sale | Adjustment

  /** One row of the inventory log: an audit record of one stock change. */
  datatype LogEntry = LogEntry(
    productId: int,
    changeType: ChangeType,
    quantityChange: int,
    previousStock: int,
    newStock: int,
    referenceType: Option<string>,
    referenceId: Option<int>,
    notes: Option<string>,
    createdBy: Option<int>)

  datatype Order = Order(
    id: int,
    orderNumber: string,
    customerName: string,
    customerEmail: string,
    customerPhone: string,
    shippingAddress: string,
    totalAmount: int,
    status: string,
    paymentStatus: string)

  /** A line of an order, with the product's name and unit price snapshotted. */
  datatype OrderItem = OrderItem(
    orderId: int,
    productId: int,
    productName: string,
    quantity: int,
    price: int,
    subtotal: int)

  datatype Store = Store(
    products: map<int, Product>,
    log: seq<LogEntry>,
    orders: seq<Order>,
    items: seq<OrderItem>)

  /** No product has a negative stock count. */
  ghost predicate StocksNonNegative(s: Store) {
    forall id :: id in s.products ==> s.products[id].stock >= 0
  }

  /** A product is marked out of stock exactly when its stock is zero. */
  ghost predicate StatusTracksStock(s: Store) {
    forall id :: id in s.products ==>
      (s.products[id].stock == 0 <==> s.products[id].status == OutOfStock)
  }
}

=== FILE: uploads.dfy ===
/**
 The product-image file-name check: a name is accepted when it has a '.'
 and the text after the last '.', lower-cased, is one of the image extensions.
 */
module Uploads {
  import opened Wrappers

  const AllowedExtensions: set<string> := {"png", "jpg", "jpeg", "gif", "webp"}

  function LowerChar(c: char): char {
    if 'A' <= c <= 'Z' then (c as int + 32) as char else c
  }

  function Lower(s: string): string {
    seq(|s|, i requires 0 <= i < |s| => LowerChar(s[i]))
  }

  /** `i` is the position of a '.' with no '.' after it. */
  predicate IsLastDot(s: string, i: int) {
    0 <= i < |s| && s[i] == '.' && forall j :: i < j < |s| ==> s[j] != '.'
  }

  /** The position of the last '.' in `s`, if there is one. */
  function LastDot(s: string): (r: Option<nat>)
    ensures r.None? <==> forall j :: 0 <= j < |s| ==> s[j] != '.'
    ensures r.Some? ==> IsLastDot(s, r.value)
    decreases |s|
  {
    if |s| == 0 then None
    else if s[|s| - 1] == '.' then Some(|s| - 1)
    else LastDot(s[..|s| - 1])
  }

  /**
   `allowed_file`: accepted exactly when the name has a last '.' and the
   lower-cased text after it is an allowed extension.
   */
  function AllowedFile(name: string): (ok: bool)
    ensures ok <==> exists i :: IsLastDot(name, i) && Lower(name[i + 1..]) in AllowedExtensions
  {
    match LastDot(name)
    case None => false
    case Some(dot) => Lower(name[dot + 1..]) in AllowedExtensions
  }

  /** A name with a stem, a '.' and a dot-free extension is judged by its extension alone. */
  lemma AllowedFileByExtension(stem: string, ext: string)
    requires forall j :: 0 <= j < |ext| ==> ext[j] != '.'
    ensures AllowedFile(stem + "." + ext) <==> Lower(ext) in AllowedExtensions
  {
    var name := stem + "." + ext;
    assert name[|stem| + 1..] == ext;
    assert IsLastDot(name, |stem|) by {
      assert forall j :: |stem| < j < |name| ==> name[j] == ext[j - |stem| - 1];
    }
  }

  lemma LowerFacts(s: string)
    ensures |Lower(s)| == |s|
    ensures forall i :: 0 <= i < |s| ==> (Lower(s)[i] == '.' <==> s[i] == '.')
    ensures forall i :: 0 <= i <= |s| ==> Lower(s)[i..] == Lower(s[i..])
    ensures Lower(Lower(s)) == Lower(s)
  {
  }

  /** The check ignores upper and lower case. */
  lemma AllowedFileIgnoresCase(name: string)
    ensures AllowedFile(Lower(name)) == AllowedFile(name)
  {
    LowerFacts(name);
    var low := Lower(name);
    assert forall i :: IsLastDot(low, i) <==> IsLastDot(name, i);
    if AllowedFile(name) {
      var i :| IsLastDot(name, i) && Lower(name[i + 1..]) in AllowedExtensions;
      LowerFacts(name[i + 1..]);
      assert Lower(low[i + 1..]) in AllowedExtensions;
    }
    if AllowedFile(low) {
      var i :| IsLastDot(low, i) && Lower(low[i + 1..]) in AllowedExtensions;
      LowerFacts(name[i + 1..]);
      assert Lower(name[i + 1..]) in AllowedExtensions;
    }
  }

  /** An upper-case extension passes. */
  lemma UpperCaseExtensionAllowed()
    ensures AllowedFile("photo.PNG")
  {
    AllowedFileByExtension("photo", "PNG");
    assert "photo" + "." + "PNG" == "photo.PNG";
    assert Lower("PNG") == "png";
  }

  /** Only the last extension counts. */
  lemma OnlyLastExtensionCounts()
    ensures !AllowedFile("archive.png.zip")
  {
    AllowedFileByExtension("archive.png", "zip");
    assert "archive.png" + "." + "zip" == "archive.png.zip";
    assert Lower("zip") == "zip";
  }

  /** A name without a '.' is refused. */
  lemma NoDotRefused(name: string)
    requires forall j :: 0 <= j < |name| ==> name[j] != '.'
    ensures !AllowedFile(name)
  {
  }
}

=== FILE: wrappers.dfy ===
/** Optional values and success-or-error results, used across the model. */
module Wrappers {

  /** A value that may be absent (a missing form field, a JSON key that was not sent). */
  datatype Option<+T> = None | Some(value: T) {

    /** The carried value, or `default` when there is none. */
    function GetOr(default: T): T {
      match this
      case Some(v) => v
      case None => default
    }
  }

  /** Either a value or the reason the operation refused. */
  datatype Result<+R, +E> = Success(value: R) | Failure(error: E)
}
